=== FILE: README.md ===
# ytdx download core in Dafny

ytdx is a desktop downloader: the user pastes links into a list, picks a
folder and a format, and presses "Download All". Each row then gets a
download task run on a thread pool. The task either hands the link to
yt-dlp or streams it over HTTP, and reports back through three signals:
`progress(float)`, `status(str)` and `finished(bool, str)`.

This project models the decision logic of that core as pure functions over
immutable values:

- `YtOptions` (ytoptions.dfy): the options record `YTDownloader.download`
  builds from the output directory and the format selector text.
- `HttpDownload` (http.dfy): `HttpDownloader`, whose chunk loop turns chunk
  lengths into percentage and bytes-so-far events. The response (length
  header, chunk lengths, an exception at the end) is an input.
- `ProgressHook` (hook.dfy): the task's `_progress_hook`. It turns one
  yt-dlp progress dictionary into progress and status signals.
- `Worker` (worker.py's `DownloadTask` in worker.dfy): `run`,
  `download_yt` and `download_file` as functions from what yt-dlp or the
  network do (an `Environment`: yt-dlp's behaviour for the options it is
  called with, the network's answer for a URL) to the trace of signals
  emitted.
- `Config` (config.dfy): `load_config` and `save_config` over an abstract
  file that is absent, corrupt, or holds a JSON document.
- `LinkItem` (linkitem.dfy): one list row, with the values its widgets show.
- `MainWindow` (window.dfy): the main window as a state machine over rows,
  folder, format, dark mode, configuration and the tasks handed to the pool.
  Signals reach a row through `Deliver`, in the order the task emitted them.
- `Signals`, `Paths`, `Text`, `Wrappers`: the event trace and its shape
  predicates, `posixpath.join` and `basename`, `str.strip()`, and `Option`.

Conventions:

- Status texts built by number formatting are structured values:
  `Eta(seconds)` and `Megabytes(downloaded, total)`.
- Percentages are exact `real`s.
- Rows carry an `id` that stands for the widget identity. `download_all`
  binds each task's signals to its row's id. A signal for a row that was
  removed changes nothing.

Some behaviour of the code worth knowing, which the model keeps:

- `format_preset` is read at start-up but never saved by any handler.
- The code has no way to cancel a task.
- The yt-dlp status shows only the ETA, and no speed.
- A negative `content-length` gives negative percentages.
- `download_all` always submits yt-dlp tasks.
- The HTTP downloader never checks the response's status code
  (core/downloader.py:22-53). A 404 or 500 body is saved to the target and
  reported as a success. `Fetch` has no status code for this reason.

## Model

| member | source | states |
|---|---|---|
| YtOptions.Build | core/downloader.py:57-81 | Output template is `outdir/%(title)s.%(ext)s`; quiet, no warnings, mp4 merge; the hook list is empty exactly when no callback is given; the format is one of four policies; post-processing is present exactly for the two audio selectors; `best` is chosen exactly when the text names none of the other four selectors |
| YtOptions.DecodeBuild | core/downloader.py:68-81 | Each of the five offered selectors yields options that read back as that same selector, so the five policies are pairwise distinct; any other text behaves as "Best (video+audio)" |
| YtOptions.AudioPresets | core/downloader.py:68-75 | mp3 and m4a both select `bestaudio` with one FFmpegExtractAudio step at quality 192, and the two option records differ only in the codec |
| HttpDownload.KnownTotal | core/downloader.py:23 | The total is known exactly when the header declares a non-zero length, and then it is that length |
| HttpDownload.PercentFacts | core/downloader.py:25-44 | For a positive total the reported value is `min(downloaded*100/total, 100)`: it lies in [0, 100], is exactly the ratio up to the total and 100 from there on; for a negative total it is negative once anything is written |
| HttpDownload.PercentMonotone | core/downloader.py:38-44 | With a positive total, more bytes never give a smaller percentage |
| HttpDownload.TargetName | core/downloader.py:14 | A non-empty file name is kept; otherwise the name is the URL's base name: the suffix of the URL after its last '/', or the whole URL when it has none |
| HttpDownload.Stream | core/downloader.py:30-50 | The loop's byte count is the sum of all chunk lengths, and its events are those of the chunk-by-chunk reference fold `StreamEvents` |
| HttpDownload.Download | core/downloader.py:17-53 | The download ends in the move to the target exactly when the request succeeded, the length header parses and nothing raised; otherwise it raises that error; events are the stream's events, or none when it fails before the loop |
| HttpDownload.UnknownTotalSilent | core/downloader.py:23-47 | With no usable length, no chunk produces any event |
| HttpDownload.ZeroChunksSilent | core/downloader.py:33-35 | Empty chunks produce no events |
| HttpDownload.StreamPairs | core/downloader.py:33-50 | With a known total, each non-empty chunk yields exactly one progress event followed by one status event |
| HttpDownload.StreamStatusBytes | core/downloader.py:33-50 | With a known total, every status shows the bytes written so far against that total, after the bytes already written and within the whole body, and the byte counts strictly increase from status to status |
| HttpDownload.StreamNoFinished | core/downloader.py:33-50 | The loop never emits a terminal event |
| HttpDownload.StreamProgress | core/downloader.py:38-44 | With a positive total, every percentage lies between that of the bytes already written and 100, and the percentages never go down |
| HttpDownload.StreamProgressBounded | core/downloader.py:38-44 | With a positive total, every percentage lies in [0, 100] and the sequence is non-decreasing |
| HttpDownload.StreamEndsAtHundred | core/downloader.py:41-50 | Once the bytes written reach the declared length, the last two events are progress 100 and the status for the full byte count |
| HttpDownload.NegativeLengthNegativeProgress | core/downloader.py:23-44 | A negative declared length makes every reported percentage negative, since the `min` caps only from above |
| ProgressHook.TotalBytes | core/worker.py:46 | `total_bytes` when truthy, else `total_bytes_estimate` when truthy, else 0 |
| ProgressHook.Clamp | core/worker.py:52 | The result lies in [0, 100], equals the input inside that range and the nearer bound outside it |
| ProgressHook.HookPercent | core/worker.py:45-52 | The percentage is the ratio times 100 clamped to [0, 100] (so an overshooting estimate shows 100), and 0 with no total or no downloaded count |
| ProgressHook.EtaStatus | core/worker.py:53 | A truthy eta gives "ETA: <eta>"; a falsy eta is passed on as it is |
| ProgressHook.OnHook | core/worker.py:43-56 | `downloading` emits the clamped percentage then the ETA status; `finished` emits exactly 100 then "Merging / finalizing..."; any other status emits nothing |
| ProgressHook.HookTrace | core/worker.py:43-56 | A run of hook calls never emits a terminal event and keeps every percentage in [0, 100] |
| ProgressHook.HookTraceSnoc | core/worker.py:43-56 | One more hook call appends exactly that call's signals to the trace |
| Signals.Failure | core/worker.py:24-26 | An exception emits exactly two events: "Error: <msg>", then `finished(False, msg)`, the only terminal event |
| Worker.ExtractorOptions | core/worker.py:36-39 | The yt-dlp call gets the task's own hook as its only hook, the task's directory, and the options of the task's selector (read back as that selector, or as the best one for unknown text); `Run` hands exactly these options to yt-dlp |
| Worker.HttpTarget | core/worker.py:29 | The HTTP target path keeps the URL's last component as its file name |
| Worker.HttpTargetInFolder | core/worker.py:29 | The HTTP target path starts with the task's folder |
| Worker.MovedToTarget | core/worker.py:29-30 | The downloader's `filename or basename(url)` fallback never changes the joined path the task passes |
| Worker.YtClosing | core/worker.py:40-41 | The end of a yt-dlp job is "Done" and success with the title (or '') when it returned, or the error pair when it raised |
| Worker.RunYt | core/worker.py:36-41 | The yt-dlp trace is "Starting yt-dlp", then exactly the hook's signals, then the closing pair; one terminal event, last; every percentage in [0, 100] |
| Worker.DownloadEvents | core/worker.py:32-33 | The callbacks see no terminal event; bounded, non-decreasing percentages for a positive length; nothing at all for an unknown length |
| Worker.Closing | core/worker.py:24-34 | The end of an HTTP job is success with the target path (one event), or the error pair (two events) |
| Worker.RunHttp | core/worker.py:28-34 | The HTTP trace starts with "Starting HTTP download" and has one terminal event, last; it reports success exactly when the fetch succeeds, with the target path; on failure the error pair closes it; with an unknown length it has 2 events on success and 3 on failure |
| Worker.HttpTrace | core/worker.py:31-34 | For a given target, the trace is "Starting HTTP download", then exactly the downloader's signals in order, then the closing part, and its length is the sum of the three |
| Worker.RunHttpEvents | core/worker.py:28-34 | An HTTP job's trace is that framed trace for the path the task reports: no downloader signal is dropped, reordered or invented |
| Worker.RunHttpProgress | core/worker.py:31-33 | With a positive declared length, the HTTP trace's percentages lie in [0, 100] and never go down |
| Worker.Run | core/worker.py:18-39 | A kind that is neither yt-dlp nor HTTP emits nothing; a yt-dlp task runs exactly the yt-dlp branch on what yt-dlp does with the task's own options, and an HTTP task exactly the HTTP branch on the network's answer for the task's URL; for either known kind exactly one terminal event is emitted, last, and it reports success exactly when the job succeeded |
| Worker.RunYtMessage | core/worker.py:18-41 | A successful yt-dlp job ends with the title (or ''); a failed one ends with the error pair whose status repeats the terminal message |
| Worker.RunHttpMessage | core/worker.py:18-34 | A failed HTTP job ends with the error pair whose status repeats the terminal message |
| Config.Defaults | core/config_manager.py:5-9 | The defaults hold exactly `last_folder`, `dark_mode` and `format_preset` |
| Config.Load | core/config_manager.py:12-20 | A stored object overlays the defaults (its keys win, missing defaults are kept); anything else gives the defaults; the three default keys are always present |
| Config.Save | core/config_manager.py:23-28 | A full write stores the configuration; a failed open leaves the file alone; a failed dump leaves it unreadable |
| Config.SaveLoadRoundTrip | core/config_manager.py:12-26 | Saving a configuration that holds the default keys and loading it back gives the same configuration |
| Config.LoadSaveLoad | core/config_manager.py:12-26 | Load, save, load is load |
| Config.FailedSave | core/config_manager.py:12-28 | After a failed open the next load is unchanged; after a failed dump it falls back to the defaults |
| LinkItem.NewRow | ui/link_item_widget.py:9-26 | A new row shows its URL as title, "Waiting" as status, and progress 0 |
| LinkItem.SetTitle | ui/link_item_widget.py:39-40 | Only the title changes |
| LinkItem.SetStatus | ui/link_item_widget.py:42-43 | Only the status changes |
| LinkItem.Trunc | ui/link_item_widget.py:46 | `int(x)` truncates toward zero |
| LinkItem.SetProgress | ui/link_item_widget.py:45-46 | The bar shows `int(pct)`, which lies in [0, 100] for a percentage in that range and is 100 for 100.0; nothing else changes |
| Text.Strip | ui/main_window.py:107 | The stripped link is empty exactly when the text is all white space; otherwise it starts and ends with a non-space character, and only white space is cut from either end |
| Paths.Basename | core/downloader.py:14 | The base name is the part of the path after its last '/' |
| Paths.Join | core/worker.py:29 | The second component ends the joined path, after a '/'; an absolute second component replaces the first; otherwise the first component starts the path and at most one '/' is added between them, exactly when the first is non-empty and does not end in '/' |
| Paths.BasenameOfJoin | core/worker.py:29 | The base name of a joined path is the last component, when that holds no '/' |
| MainWindow.Init | ui/main_window.py:33-104 | Start-up loads the configuration; a window exists exactly when `last_folder` and `format_preset` are strings and `dark_mode` is a boolean or a number; the folder is `last_folder` (home unless the file set it); the format box shows the saved preset exactly when it is one of its items, else its first; dark mode is on exactly when `dark_mode` is true or a non-zero number; the state satisfies the window invariant |
| MainWindow.AddClicked | ui/main_window.py:106-121 | An empty stripped link only raises the warning; otherwise exactly one new row with the stripped link is appended, the box is cleared, and the invariant is kept |
| MainWindow.MetadataArrived | ui/main_window.py:123-125 | A non-empty fetched title replaces that row's title; an empty or missing one changes nothing |
| MainWindow.Keep | ui/main_window.py:131-134 | A row survives removal exactly when it was listed and is not selected |
| MainWindow.KeepOrdered | ui/main_window.py:131-134 | The surviving rows keep their relative order |
| MainWindow.RemoveSelected | ui/main_window.py:131-134 | Exactly the selected rows go, the rest stay in order, nothing else changes, and the invariant is kept |
| MainWindow.AddThenRemove | ui/main_window.py:106-134 | Removing the row just added restores the list |
| MainWindow.ChooseFolder | ui/main_window.py:136-143 | A cancelled dialog changes nothing; otherwise the folder and `last_folder` become the choice and the configuration is saved |
| MainWindow.ToggleDark | ui/main_window.py:180-187 | `dark_mode` becomes `bool(state)`, the style follows, and the configuration is saved |
| MainWindow.DownloadAll | ui/main_window.py:145-162 | With no rows only the notice is shown; otherwise every row is "Queued" and one yt-dlp task per row, in row order, with the current folder and format, is handed to the pool |
| MainWindow.OnFinished | ui/main_window.py:164-178 | Success shows "Completed" at 100; failure shows "Failed: <message>" and keeps the bar; no other row changes |
| MainWindow.DeliverAllFrame | ui/main_window.py:155-159 | A task's signals touch only the row they are bound to |
| MainWindow.DeliverFinished | ui/main_window.py:159-178 | Whatever came before, the terminal signal decides what the row shows |
| MainWindow.DeliverTrace | ui/main_window.py:157-178 | After a trace that ends in a terminal signal, the row shows "Completed" at 100 or "Failed: <message>" |
| MainWindow.FinishedHookOverrides | core/worker.py:54-56 | A yt-dlp "finished" report shows 100 and "Merging / finalizing..." on its row, whatever the row showed before |
| MainWindow.RunShownOnRow | ui/main_window.py:155-178 | Once a task's trace reaches its row, the row shows "Completed" at 100 exactly when the job succeeded and "Failed: <error>" otherwise |
| MainWindow.FolderPersists | ui/main_window.py:136-143 | A chosen folder is the folder at the next start when the save succeeds |
| MainWindow.DarkModePersists | ui/main_window.py:180-187 | The dark-mode choice holds at the next start when the save succeeds |

## Left out

- Threads: `QThreadPool`, `QRunnable` execution and the cross-thread delivery of Qt signals are concurrency. A task's signals are a trace delivered in emission order; traces of different tasks are not interleaved.
- Foreign I/O: `requests.get`, `iter_content`, yt-dlp's `extract_info`, `os.makedirs`, the temporary file and `shutil.move` are inputs. These are the length header, the chunk lengths, the hook dictionaries, and the returned info or raised error.
- core/metadata_fetcher.py is not part of this model. It is an executor plus network fetches; its result arrives as `MetadataArrived`. Thumbnails are left out with it.
- Widget layout, stylesheets, the sound effect and beep, and message-box rendering are UI rendering. A message box is recorded only as a `Notice`.
- Float formatting of the MB status (`f"{x:.1f}"`) and float rounding are left out: the status is the byte pair and percentages are exact reals. In double precision `downloaded * (100 / total)` can land just below 100 when the download completes (97 bytes of 97 give 99.99999999999999), so the exact 100 of HttpDownload.StreamEndsAtHundred holds for the real-number model only. Likewise the byte counts of HttpDownload.StreamStatusBytes strictly increase, while the rendered texts, rounded to 0.1 MiB, only never go down.
- Moving into an existing directory: for a URL ending in '/' the base name is empty and the target is the folder followed by '/'. `shutil.move` (core/downloader.py:52) then moves the temporary file into that directory under its random name, and `finished` reports the directory. The model treats the move as landing at the target path.
- Paths are POSIX paths (`os.path` as `posixpath`). On Windows `ntpath` joins with a backslash and splits base names on both separators, which this model does not cover.
- JSON encoding and file access are an abstract store, and encoding is taken as the identity.
- main.py and app.py are process entry points. core/types.py is not part of this model; `Kind` adds a third value for "neither kind".
- Cancellation, a bounded pool and retry: the code implements none of them.
- Changing the format box: `format` is any window state that satisfies the invariant. The code never saves `format_preset`.
- `QProgressBar` ignores out-of-range values; the row stores `int(pct)` as given.
- MainWindow.Init: only a string `last_folder`, a string `format_preset` and a boolean or number `dark_mode` are covered. Any other value is modelled as no window, and the model does not promise what the code does then: how PySide converts such a value for `QLabel`, `setCurrentText` or `setChecked` is foreign code. A `last_folder` of `null`, for one, does not stop the code from starting: `QLabel(None)` picks the parent-only constructor, the window starts with no download folder, and each task fails later in `os.makedirs`.
- Config.FailedSave: a save that fails after `open` truncated the file does not leave the stored state unchanged. The next load falls back to the defaults.
- ProgressHook.EtaStatus: the raw falsy eta is passed to a `str` signal as it is; how PySide converts it is not modelled.

=== FILE: config.dfy ===
/** `config_manager` (core/config_manager.py): the settings document, loaded
    over the defaults and saved back, with every read or write error swallowed.
    The file is an abstract store; JSON encoding is taken as the identity. */
module Config {

  /** A JSON value as `json.load` returns it. */
  datatype Json =
    | JNull
    | JBool(b: bool)
    | JNumber(n: real)
    | JString(s: string)
    | JArray(items: seq<Json>)
    | JObject(fields: map<string, Json>)

  type Cfg = map<string, Json>

  /** What is at the configuration path: nothing, something `open` or
      `json.load` fails on, or a parsed document. */
  datatype ConfigFile = Absent | Corrupt | Stored(doc: Json)

  /** How a `save_config` call goes: written in full, `open` fails (the file is
      untouched), or the write fails after `open` truncated the file. */
  datatype WriteFault = Written | OpenFails | DumpFails

  const DefaultKeys: set<string> := {"last_folder", "dark_mode", "format_preset"}

  /** `DEFAULT_CONFIG`, with the user's home directory as a parameter. */
  function Defaults(home: string): (c: Cfg)
    ensures c.Keys == DefaultKeys
  {
    map["last_folder" := JString(home), "dark_mode" := JBool(false), "format_preset" := JString("Best (video+audio)")]
  }

  /** Python truthiness of a JSON value. */
  predicate Truthy(j: Json)
  {
    match j
    case JNull => false
    case JBool(b) => b
    case JNumber(n) => n != 0.0
    case JString(s) => s != ""
    case JArray(items) => items != []
    case JObject(fields) => fields != map[]
  }

  /** `load_config()`: a stored object overlays the defaults (its keys win);
      anything else (no file, an unreadable file, a document that is not an
      object, whose `**` unpacking raises) gives the defaults. Never fails. */
  function Load(f: ConfigFile, home: string): (c: Cfg)
    ensures DefaultKeys <= c.Keys
    ensures f.Stored? && f.doc.JObject? ==>
      && c.Keys == DefaultKeys + f.doc.fields.Keys
      && (forall k :: k in f.doc.fields ==> c[k] == f.doc.fields[k])
      && (forall k :: k in DefaultKeys && k !in f.doc.fields ==> c[k] == Defaults(home)[k])
    ensures !(f.Stored? && f.doc.JObject?) ==> c == Defaults(home)
  {
    match f
    case Stored(JObject(data)) => Defaults(home) + data
    case _ => Defaults(home)
  }

  /** `save_config(cfg)`: errors are swallowed, so the result is the new state
      of the file. */
  function Save(f: ConfigFile, cfg: Cfg, fault: WriteFault): (f': ConfigFile)
    ensures fault == Written ==> f' == Stored(JObject(cfg))
    ensures fault == OpenFails ==> f' == f
    ensures fault == DumpFails ==> f' == Corrupt
  {
    match fault
    case Written => Stored(JObject(cfg))
    case OpenFails => f
    case DumpFails => Corrupt
  }

  /** Saving a configuration that holds every default key and loading it back
      gives the same configuration. */
  lemma SaveLoadRoundTrip(f: ConfigFile, cfg: Cfg, home: string)
    requires DefaultKeys <= cfg.Keys
    ensures Load(Save(f, cfg, Written), home) == cfg
  {
    var c := Load(Save(f, cfg, Written), home);
    assert c.Keys == cfg.Keys;
  }

  /** A loaded configuration survives a successful save unchanged, whatever the
      file held before: load, save, load is load. */
  lemma LoadSaveLoad(f: ConfigFile, g: ConfigFile, home: string)
    ensures Load(Save(g, Load(f, home), Written), home) == Load(f, home)
  {
    SaveLoadRoundTrip(g, Load(f, home), home);
  }

  /** A save whose `open` fails leaves what the next load sees unchanged; one
      that fails after truncating the file makes the next load fall back to the
      defaults. */
  lemma FailedSave(f: ConfigFile, cfg: Cfg, home: string)
    ensures Load(Save(f, cfg, OpenFails), home) == Load(f, home)
    ensures Load(Save(f, cfg, DumpFails), home) == Defaults(home)
  {
  }
}

=== FILE: hook.dfy ===
/** `DownloadTask._progress_hook` (core/worker.py): turns one yt-dlp progress
    dictionary into the progress and status signals it emits. */
module ProgressHook {
  import opened Wrappers
  import opened Signals

  /** The keys of a yt-dlp progress dictionary the hook reads; `None` stands for
      a key that is absent or holds `None`. */
  datatype HookEvent = HookEvent(
    status: Option<string>,
    downloadedBytes: Option<real>,
    totalBytes: Option<real>,
    totalBytesEstimate: Option<real>,
    eta: Option<int>)

  predicate Truthy(x: Option<real>)
  {
    x.Some? && x.value != 0.0
  }

  /** `total_bytes or total_bytes_estimate or 0`. */
  function TotalBytes(d: HookEvent): (t: real)
    ensures Truthy(d.totalBytes) ==> t == d.totalBytes.value
    ensures !Truthy(d.totalBytes) && Truthy(d.totalBytesEstimate) ==> t == d.totalBytesEstimate.value
    ensures t == 0.0 <==> !Truthy(d.totalBytes) && !Truthy(d.totalBytesEstimate)
  {
    if Truthy(d.totalBytes) then d.totalBytes.value
    else if Truthy(d.totalBytesEstimate) then d.totalBytesEstimate.value
    else 0.0
  }

  /** `min(max(x, 0.0), 100.0)`. */
  function Clamp(x: real): (r: real)
    ensures 0.0 <= r <= 100.0
    ensures 0.0 <= x <= 100.0 ==> r == x
    ensures x < 0.0 ==> r == 0.0
    ensures x > 100.0 ==> r == 100.0
  {
    var lo := if x > 0.0 then x else 0.0;
    if lo < 100.0 then lo else 100.0
  }

  /** The percentage of a `downloading` event: downloaded / total * 100 clamped
      to [0, 100], and 0 when no total is known. A missing `downloaded_bytes`
      reads as 0; one holding `None` makes the division raise, which the hook
      turns into 0 as well. */
  function HookPercent(d: HookEvent): (p: real)
    ensures 0.0 <= p <= 100.0
    ensures TotalBytes(d) == 0.0 ==> p == 0.0
    ensures d.downloadedBytes.None? ==> p == 0.0
    ensures TotalBytes(d) != 0.0 && d.downloadedBytes.Some?
      && 0.0 <= d.downloadedBytes.value / TotalBytes(d) * 100.0 <= 100.0
      ==> p == d.downloadedBytes.value / TotalBytes(d) * 100.0
    ensures TotalBytes(d) != 0.0 && d.downloadedBytes.Some? ==>
      p == Clamp(d.downloadedBytes.value / TotalBytes(d) * 100.0)
  {
    var total := TotalBytes(d);
    var pct := if total != 0.0 then (if d.downloadedBytes.Some? then d.downloadedBytes.value / total * 100.0 else 0.0)
               else 0.0;
    Clamp(pct)
  }

  /** `d.get('eta') and f"ETA: {d.get('eta')}"`: the ETA text for a truthy eta,
      and the falsy value itself (None or 0) otherwise. */
  function EtaStatus(eta: Option<int>): (s: StatusText)
    ensures s.Eta? <==> eta.Some? && eta.value != 0
    ensures s.Eta? ==> s.seconds == eta.value
    ensures !s.Eta? ==> s == EtaValue(eta)
  {
    if eta.Some? && eta.value != 0 then Eta(eta.value) else EtaValue(eta)
  }

  /** The signals emitted for one progress dictionary. */
  function OnHook(d: HookEvent): (t: seq<Event>)
    ensures NoFinished(t) && ProgressWithin(t, 0.0, 100.0)
    ensures t == [] <==> d.status != Some("downloading") && d.status != Some("finished")
    ensures d.status == Some("downloading") ==>
      |t| == 2 && t[0].Progress? && t[0].pct == HookPercent(d) && t[1] == Status(EtaStatus(d.eta))
    ensures d.status == Some("finished") ==>
      t == [Progress(100.0), Status(Text("Merging / finalizing..."))]
  {
    if d.status == Some("downloading") then [Progress(HookPercent(d)), Status(EtaStatus(d.eta))]
    else if d.status == Some("finished") then [Progress(100.0), Status(Text("Merging / finalizing..."))]
    else []
  }

  /** The signals emitted for a run of progress dictionaries, in order: no
      terminal event, every percentage in [0, 100]. */
  function HookTrace(ds: seq<HookEvent>): (t: seq<Event>)
    ensures NoFinished(t) && ProgressWithin(t, 0.0, 100.0)
    ensures ds == [] ==> t == []
    decreases |ds|
  {
    if ds == [] then []
    else
      var head := OnHook(ds[0]);
      var tail := HookTrace(ds[1..]);
      NoFinishedConcat(head, tail);
      ProgressWithinConcat(head, tail, 0.0, 100.0);
      head + tail
  }

  /** Replaying the dictionaries one more at a time appends that one's signals. */
  lemma {:induction false} HookTraceSnoc(ds: seq<HookEvent>, d: HookEvent)
    ensures HookTrace(ds + [d]) == HookTrace(ds) + OnHook(d)
    decreases |ds|
  {
    if ds == [] {
      assert [d][1..] == [];
    } else {
      assert (ds + [d])[1..] == ds[1..] + [d];
      HookTraceSnoc(ds[1..], d);
    }
  }
}

=== FILE: http.dfy ===
/** `HttpDownloader` (core/downloader.py): a streaming fetch whose chunk loop
    reports a clamped percentage and a bytes-so-far status for every non-empty
    chunk when the response declares its length. The network, the temporary file
    and the final move are the collaborator's: they arrive as a `Fetch` value. */
module HttpDownload {
  import opened Wrappers
  import opened Signals
  import Paths

  /** The `content-length` header as the response carries it. */
  datatype ContentLength =
    | Missing                    // no header: `headers.get(..., 0)` gives 0
    | Declared(n: int)           // a header `int()` accepts
    | Malformed(error: string)   // a header `int()` rejects, raising ValueError

  /** What the network and the file system do for one download: the request
      itself fails, or a response arrives whose chunks (their lengths) are read
      in order until the stream ends or `fault` is raised (by the stream, the
      temporary file or the final move). */
  datatype Fetch =
    | RequestFailed(error: string)
    | Response(length: ContentLength, chunks: seq<nat>, fault: Option<string>)

  datatype Result = Moved(path: string) | Raised(error: string)

  /** The events the callbacks saw and how `download` ended. */
  datatype Outcome = Outcome(events: seq<Event>, result: Result)

  /** `int(content-length or 0) or None`: a missing or zero length is unknown. */
  function KnownTotal(h: ContentLength): (t: Option<int>)
    requires !h.Malformed?
    ensures t.Some? <==> h.Declared? && h.n != 0
    ensures t.Some? ==> t.value == h.n
  {
    match h
    case Missing => None
    case Declared(n) => if n == 0 then None else Some(n)
  }

  /** `min(downloaded * (100 / total), 100.0)`. */
  function Percent(downloaded: nat, total: int): real
    requires total != 0
  {
    var pct := (downloaded as real) * (100.0 / (total as real));
    if pct < 100.0 then pct else 100.0
  }

  /** With a positive total the percentage is the exact ratio, capped at 100,
      so it lies in [0, 100]; with a negative total it is below zero as soon
      as anything was written. */
  lemma PercentFacts(downloaded: nat, total: int)
    requires total != 0
    ensures var p := Percent(downloaded, total);
      && (total > 0 ==> 0.0 <= p <= 100.0)
      && (total > 0 && downloaded >= total ==> p == 100.0)
      && (total > 0 && downloaded <= total ==> p == (downloaded as real) * 100.0 / (total as real))
      && (total < 0 && downloaded > 0 ==> p < 0.0)
  {
    var x := downloaded as real;
    var d := total as real;
    var s := 100.0 / d;
    assert d * s == 100.0;
    if total > 0 {
      assert s > 0.0;
      assert x * s >= 0.0;
      var diff := x - d;
      assert x * s == d * s + diff * s;
      if downloaded >= total {
        assert diff * s >= 0.0;
        assert Percent(downloaded, total) == 100.0;
      }
      if downloaded <= total {
        assert diff * s <= 0.0;
        assert Percent(downloaded, total) == x * s;
        assert x * s == x * 100.0 / d;
      }
    } else if downloaded > 0 {
      assert s < 0.0;
      assert x * s < 0.0;
    }
  }

  lemma PercentMonotone(d1: nat, d2: nat, total: int)
    requires total > 0 && d1 <= d2
    ensures Percent(d1, total) <= Percent(d2, total)
  {
    PercentFacts(d1, total);
    PercentFacts(d2, total);
    var s := 100.0 / (total as real);
    var diff := (d2 - d1) as real;
    assert s > 0.0 && diff >= 0.0;
    assert diff * s >= 0.0;
    assert (d2 as real) * s == (d1 as real) * s + diff * s;
  }

  /** `filename or os.path.basename(url)`: the file name a downloader writes to. */
  function TargetName(url: string, filename: Option<string>): (f: string)
    ensures filename.Some? && filename.value != "" ==> f == filename.value
    ensures (filename.None? || filename.value == "") ==>
      && '/' !in f && |f| <= |url| && f == url[|url| - |f|..]
      && (|f| < |url| ==> url[|url| - |f| - 1] == '/')
  {
    if filename.Some? && filename.value != "" then filename.value else Paths.Basename(url)
  }

  /** Total bytes written: the sum of the chunk lengths (empty chunks add nothing). */
  function Sum(chunks: seq<nat>): nat
  {
    if chunks == [] then 0 else chunks[0] + Sum(chunks[1..])
  }

  /** What the callbacks receive for one chunk, `before` bytes having been written. */
  function ChunkEvents(total: Option<int>, before: nat, chunk: nat): seq<Event>
  {
    if chunk == 0 || total.None? || total.value == 0 then []
    else [Progress(Percent(before + chunk, total.value)), Status(Megabytes(before + chunk, total.value))]
  }

  /** The callbacks' view of the whole chunk loop, `before` bytes having been written. */
  function StreamEvents(total: Option<int>, before: nat, chunks: seq<nat>): seq<Event>
    decreases |chunks|
  {
    if chunks == [] then []
    else ChunkEvents(total, before, chunks[0]) + StreamEvents(total, before + chunks[0], chunks[1..])
  }

  /** The chunk loop of `download`: skips empty chunks, counts the bytes written
      and reports each non-empty chunk to both callbacks when the total is known. */
  method Stream(total: Option<int>, chunks: seq<nat>) returns (downloaded: nat, events: seq<Event>)
    ensures downloaded == Sum(chunks)
    ensures events == StreamEvents(total, 0, chunks)
  {
    downloaded := 0;
    events := [];
    var i := 0;
    while i < |chunks|
      invariant 0 <= i <= |chunks|
      invariant downloaded + Sum(chunks[i..]) == Sum(chunks)
      invariant events + StreamEvents(total, downloaded, chunks[i..]) == StreamEvents(total, 0, chunks)
    {
      var chunk := chunks[i];
      StreamStep(total, downloaded, chunks, i);
      ghost var step := ChunkEvents(total, downloaded, chunk);
      ghost var rest := StreamEvents(total, downloaded + chunk, chunks[i + 1..]);
      ghost var before := events;
      if chunk != 0 {
        downloaded := downloaded + chunk;
        if total.Some? && total.value != 0 {
          events := events + [Progress(Percent(downloaded, total.value)), Status(Megabytes(downloaded, total.value))];
        } else {
          assert before + step == before;
        }
      } else {
        assert before + step == before;
      }
      AppendStep(before, step, rest, events);
      i := i + 1;
    }
    assert chunks[i..] == [];
  }

  /** Appending one turn's events keeps the loop's trace split consistent. */
  lemma AppendStep(before: seq<Event>, step: seq<Event>, rest: seq<Event>, after: seq<Event>)
    requires after == before + step
    ensures after + rest == before + (step + rest)
  {
  }

  /** One turn of the chunk loop, seen from position `i`. */
  lemma StreamStep(total: Option<int>, before: nat, chunks: seq<nat>, i: nat)
    requires i < |chunks|
    ensures Sum(chunks[i..]) == chunks[i] + Sum(chunks[i + 1..])
    ensures StreamEvents(total, before, chunks[i..])
      == ChunkEvents(total, before, chunks[i]) + StreamEvents(total, before + chunks[i], chunks[i + 1..])
  {
    assert chunks[i..][1..] == chunks[i + 1..];
  }

  /** `HttpDownloader(url, filename=target).download(progress, status)`. */
  function Download(target: string, f: Fetch): (o: Outcome)
    ensures o.result.Moved? <==> f.Response? && !f.length.Malformed? && f.fault.None?
    ensures o.result.Moved? ==> o.result.path == target
    ensures o.result.Raised? ==> o.result.error == (if f.RequestFailed? then f.error
                                                    else if f.length.Malformed? then f.length.error
                                                    else f.fault.value)
    ensures f.Response? && !f.length.Malformed? ==> o.events == StreamEvents(KnownTotal(f.length), 0, f.chunks)
    ensures f.RequestFailed? || f.length.Malformed? ==> o.events == []
  {
    match f
    case RequestFailed(e) => Outcome([], Raised(e))
    case Response(length, chunks, fault) =>
      if length.Malformed? then Outcome([], Raised(length.error))
      else
        var events := StreamEvents(KnownTotal(length), 0, chunks);
        if fault.Some? then Outcome(events, Raised(fault.value)) else Outcome(events, Moved(target))
  }

  /** With no usable length, no chunk produces a progress or a status event. */
  lemma {:induction false} UnknownTotalSilent(before: nat, chunks: seq<nat>)
    ensures StreamEvents(None, before, chunks) == []
    decreases |chunks|
  {
    if chunks != [] {
      UnknownTotalSilent(before + chunks[0], chunks[1..]);
    }
  }

  /** The chunk loop never emits a terminal event, and emits a progress and a
      status event for each non-empty chunk when the total is known. */
  lemma {:induction false} StreamNoFinished(total: Option<int>, before: nat, chunks: seq<nat>)
    ensures NoFinished(StreamEvents(total, before, chunks))
    decreases |chunks|
  {
    if chunks != [] {
      StreamNoFinished(total, before + chunks[0], chunks[1..]);
      NoFinishedConcat(ChunkEvents(total, before, chunks[0]), StreamEvents(total, before + chunks[0], chunks[1..]));
    }
  }

  /** With a positive total, every percentage lies between the percentage of
      the bytes already written and 100, and the percentages never go down. */
  lemma {:induction false} StreamProgress(total: int, before: nat, chunks: seq<nat>)
    requires total > 0
    ensures ProgressWithin(StreamEvents(Some(total), before, chunks), Percent(before, total), 100.0)
    ensures ProgressMonotone(StreamEvents(Some(total), before, chunks))
    decreases |chunks|
  {
    if chunks != [] {
      var c := chunks[0];
      var head := ChunkEvents(Some(total), before, c);
      var tail := StreamEvents(Some(total), before + c, chunks[1..]);
      StreamProgress(total, before + c, chunks[1..]);
      PercentMonotone(before, before + c, total);
      PercentFacts(before + c, total);
      assert ProgressWithin(head, Percent(before, total), 100.0);
      forall i | 0 <= i < |tail| && tail[i].Progress?
        ensures Percent(before, total) <= tail[i].pct <= 100.0
      {
        assert Percent(before + c, total) <= tail[i].pct;
      }
      ProgressWithinConcat(head, tail, Percent(before, total), 100.0);
      ProgressMonotoneConcat(head, tail, Percent(before + c, total));
    }
  }

  /** With a positive total, every percentage the loop reports lies in [0, 100]
      and the sequence of percentages never goes down. */
  lemma StreamProgressBounded(total: int, chunks: seq<nat>)
    requires total > 0
    ensures ProgressWithin(StreamEvents(Some(total), 0, chunks), 0.0, 100.0)
    ensures ProgressMonotone(StreamEvents(Some(total), 0, chunks))
  {
    StreamProgress(total, 0, chunks);
  }

  lemma {:induction false} ZeroChunksSilent(total: Option<int>, before: nat, chunks: seq<nat>)
    requires Sum(chunks) == 0
    ensures StreamEvents(total, before, chunks) == []
    decreases |chunks|
  {
    if chunks != [] {
      ZeroChunksSilent(total, before, chunks[1..]);
    }
  }

  /** Once the bytes written reach the declared length, the last two events are
      a progress of exactly 100 and the status for the whole length. */
  lemma {:induction false} StreamEndsAtHundred(total: int, before: nat, chunks: seq<nat>)
    requires total > 0 && Sum(chunks) > 0 && before + Sum(chunks) >= total
    ensures var e := StreamEvents(Some(total), before, chunks);
      |e| >= 2 && e[|e| - 2] == Progress(100.0) && e[|e| - 1] == Status(Megabytes(before + Sum(chunks), total))
    decreases |chunks|
  {
    var c := chunks[0];
    var head := ChunkEvents(Some(total), before, c);
    var tail := StreamEvents(Some(total), before + c, chunks[1..]);
    if Sum(chunks[1..]) > 0 {
      StreamEndsAtHundred(total, before + c, chunks[1..]);
      assert (head + tail)[|head + tail| - 2] == tail[|tail| - 2];
      assert (head + tail)[|head + tail| - 1] == tail[|tail| - 1];
    } else {
      ZeroChunksSilent(Some(total), before + c, chunks[1..]);
      LastChunkAtHundred(total, before, c);
      assert head + tail == head;
    }
  }

  /** A non-empty chunk that reaches the declared length reports exactly 100
      and the bytes written so far. */
  lemma LastChunkAtHundred(total: int, before: nat, c: nat)
    requires total > 0 && c > 0 && before + c >= total
    ensures ChunkEvents(Some(total), before, c) == [Progress(100.0), Status(Megabytes(before + c, total))]
  {
    PercentFacts(before + c, total);
  }

  /** Number of non-empty chunks. */
  function NonEmpty(chunks: seq<nat>): nat
  {
    if chunks == [] then 0 else (if chunks[0] == 0 then 0 else 1) + NonEmpty(chunks[1..])
  }

  /** Progress and status events alternate, a progress first. */
  predicate Paired(t: seq<Event>)
  {
    && |t| % 2 == 0
    && forall k :: 0 <= k < |t| ==> (if k % 2 == 0 then t[k].Progress? else t[k].Status?)
  }

  /** Two paired traces in a row are paired: the first has even length, so
      the second keeps its parity. */
  lemma PairedConcat(a: seq<Event>, b: seq<Event>)
    requires Paired(a) && Paired(b)
    ensures Paired(a + b)
  {
    var e := a + b;
    forall k | 0 <= k < |e| ensures (if k % 2 == 0 then e[k].Progress? else e[k].Status?) {
      if k < |a| {
        assert e[k] == a[k];
      } else {
        assert e[k] == b[k - |a|];
        EvenShift(k - |a|, |a|);
      }
    }
  }

  /** Shifting an index by an even amount keeps its parity. */
  lemma EvenShift(j: nat, n: nat)
    requires n % 2 == 0
    ensures (j + n) % 2 == j % 2
  {
  }

  /** With a known total, each non-empty chunk yields exactly one progress
      event followed by one status event. */
  lemma {:induction false} StreamPairs(total: int, before: nat, chunks: seq<nat>)
    requires total != 0
    ensures Paired(StreamEvents(Some(total), before, chunks))
    ensures |StreamEvents(Some(total), before, chunks)| == 2 * NonEmpty(chunks)
    decreases |chunks|
  {
    if chunks != [] {
      var head := ChunkEvents(Some(total), before, chunks[0]);
      var tail := StreamEvents(Some(total), before + chunks[0], chunks[1..]);
      StreamPairs(total, before + chunks[0], chunks[1..]);
      assert Paired(head);
      PairedConcat(head, tail);
    }
  }

  /** Every status in `t` is a byte count against `total`, above `lo` and at
      most `hi`. */
  predicate StatusIn(t: seq<Event>, total: int, lo: int, hi: int)
  {
    forall i :: 0 <= i < |t| && t[i].Status? ==>
      t[i].text.Megabytes? && t[i].text.total == total && lo < t[i].text.downloaded <= hi
  }

  /** The byte counts of the statuses in `t` strictly increase. */
  predicate StatusIncreasing(t: seq<Event>)
  {
    forall i, j :: 0 <= i < j < |t| && t[i].Status? && t[j].Status? && t[i].text.Megabytes? && t[j].text.Megabytes? ==>
      t[i].text.downloaded < t[j].text.downloaded
  }

  /** Byte-count statuses up to `mid`, then statuses beyond `mid`: the joined
      trace stays in range and still increases. */
  lemma StatusConcat(a: seq<Event>, b: seq<Event>, total: int, lo: int, mid: int, hi: int)
    requires StatusIn(a, total, lo, mid) && StatusIncreasing(a)
    requires StatusIn(b, total, mid, hi) && StatusIncreasing(b)
    requires lo <= mid <= hi
    ensures StatusIn(a + b, total, lo, hi) && StatusIncreasing(a + b)
  {
    var e := a + b;
    forall i | 0 <= i < |e| && e[i].Status?
      ensures e[i].text.Megabytes? && e[i].text.total == total && lo < e[i].text.downloaded <= hi
    {
      if i < |a| { assert e[i] == a[i]; } else { assert e[i] == b[i - |a|]; }
    }
    forall i, j | 0 <= i < j < |e| && e[i].Status? && e[j].Status? && e[i].text.Megabytes? && e[j].text.Megabytes?
      ensures e[i].text.downloaded < e[j].text.downloaded
    {
      if j < |a| {
        assert e[i] == a[i] && e[j] == a[j];
      } else if i < |a| {
        assert e[i] == a[i] && e[j] == b[j - |a|];
      } else {
        assert e[i] == b[i - |a|] && e[j] == b[j - |a|];
      }
    }
  }

  /** With a known total, every status reports the bytes written so far
      against that total, and the counts only go up: each lies after the bytes
      already written and within the bytes of the whole body. */
  lemma {:induction false} StreamStatusBytes(total: int, before: nat, chunks: seq<nat>)
    requires total != 0
    ensures StatusIn(StreamEvents(Some(total), before, chunks), total, before, before + Sum(chunks))
    ensures StatusIncreasing(StreamEvents(Some(total), before, chunks))
    decreases |chunks|
  {
    if chunks != [] {
      var c := chunks[0];
      var head := ChunkEvents(Some(total), before, c);
      var tail := StreamEvents(Some(total), before + c, chunks[1..]);
      StreamStatusBytes(total, before + c, chunks[1..]);
      assert StatusIn(head, total, before, before + c);
      assert StatusIncreasing(head);
      StatusConcat(head, tail, total, before, before + c, before + Sum(chunks));
    }
  }

  /** Every percentage in `t` is below zero. */
  predicate ProgressNegative(t: seq<Event>)
  {
    forall i :: 0 <= i < |t| && t[i].Progress? ==> t[i].pct < 0.0
  }

  /** A negative declared length is not rejected: every percentage reported is
      then below zero (the `min` caps only from above). */
  lemma {:induction false} NegativeLengthNegativeProgress(total: int, before: nat, chunks: seq<nat>)
    requires total < 0
    ensures ProgressNegative(StreamEvents(Some(total), before, chunks))
    decreases |chunks|
  {
    if chunks != [] {
      var head := ChunkEvents(Some(total), before, chunks[0]);
      var tail := StreamEvents(Some(total), before + chunks[0], chunks[1..]);
      NegativeLengthNegativeProgress(total, before + chunks[0], chunks[1..]);
      var e: seq<Event> := head + tail;
      forall i | 0 <= i < |e| && e[i].Progress? ensures e[i].pct < 0.0 {
        if i >= |head| {
          assert e[i] == tail[i - |head|];
        } else {
          PercentFacts(before + chunks[0], total);
          assert e[i] == head[i] && head[0] == Progress(Percent(before + chunks[0], total));
        }
      }
    }
  }
}

=== FILE: linkitem.dfy ===
/** `LinkItemWidget` (ui/link_item_widget.py): one row of the link list, with
    the widgets reduced to the values they display. */
module LinkItem {
  import opened Signals

  /** `id` stands for the widget's identity, which the download signals are
      bound to; `progress` is the progress bar's value. */
  datatype Row = Row(id: nat, url: string, title: string, status: StatusText, progress: int)

  /** A new row shows its URL as title, waits, and has no progress. */
  function NewRow(id: nat, url: string): (r: Row)
    ensures r.id == id && r.url == url
    ensures r.title == url && r.status == Text("Waiting") && r.progress == 0
  {
    Row(id, url, url, Text("Waiting"), 0)
  }

  /** `set_title`: only the title changes. */
  function SetTitle(r: Row, text: string): (r': Row)
    ensures r'.title == text
    ensures r'.(title := r.title) == r
  {
    r.(title := text)
  }

  /** `set_status(str(text))`: only the status changes. */
  function SetStatus(r: Row, text: StatusText): (r': Row)
    ensures r'.status == text
    ensures r'.(status := r.status) == r
  {
    r.(status := text)
  }

  /** `int(x)`: truncation toward zero. */
  function Trunc(x: real): (n: int)
    ensures x >= 0.0 ==> n >= 0 && n as real <= x < n as real + 1.0
    ensures x < 0.0 ==> n <= 0 && n as real - 1.0 < x <= n as real
  {
    if x >= 0.0 then x.Floor else -((-x).Floor)
  }

  /** `set_progress(pct)`: the bar shows `int(pct)`; nothing else changes. */
  function SetProgress(r: Row, pct: real): (r': Row)
    ensures r'.progress == Trunc(pct)
    ensures r'.(progress := r.progress) == r
    ensures 0.0 <= pct <= 100.0 ==> 0 <= r'.progress <= 100
    ensures pct == 100.0 ==> r'.progress == 100
  {
    r.(progress := Trunc(pct))
  }
}

=== FILE: paths.dfy ===
/** POSIX path helpers as Python's `posixpath` computes them. */
module Paths {

  /** The index just after the last '/' of `p`, or 0 when `p` has none. */
  function AfterLastSlash(p: string): (i: nat)
    ensures i <= |p|
    ensures forall k :: i <= k < |p| ==> p[k] != '/'
    ensures i > 0 ==> p[i - 1] == '/'
    decreases |p|
  {
    if |p| == 0 then 0
    else if p[|p| - 1] == '/' then |p|
    else AfterLastSlash(p[..|p| - 1])
  }

  /** `os.path.basename(p)`: everything after the last '/'. */
  function Basename(p: string): (b: string)
    ensures |b| <= |p| && b == p[|p| - |b|..]
    ensures '/' !in b
    ensures |b| < |p| ==> p[|p| - |b| - 1] == '/'
  {
    p[AfterLastSlash(p)..]
  }

  /** `os.path.join(a, b)` for two components. */
  function Join(a: string, b: string): (r: string)
    ensures |b| <= |r| && r[|r| - |b|..] == b
    ensures |b| < |r| ==> r[|r| - |b| - 1] == '/'
    ensures |b| > 0 && b[0] == '/' ==> r == b
    ensures !(|b| > 0 && b[0] == '/') ==> |a| <= |r| && r[..|a|] == a
    ensures !(|b| > 0 && b[0] == '/') ==>
      |r| == |a| + |b| + (if |a| == 0 || a[|a| - 1] == '/' then 0 else 1)
  {
    if |b| > 0 && b[0] == '/' then b
    else if |a| == 0 || a[|a| - 1] == '/' then a + b
    else a + "/" + b
  }

  /** The base name of a joined path is the last component, when that component
      holds no separator: the file a job writes keeps the name it was given. */
  lemma BasenameOfJoin(dir: string, name: string)
    requires '/' !in name
    ensures Basename(Join(dir, name)) == name
  {
  }
}

=== FILE: signals.dfy ===
/** The three signals a download task emits (core/signals.py), as an event trace:
    `progress(float)`, `status(str)` and `finished(bool, str)`. */
module Signals {
  import opened Wrappers

  /** The value carried by a status signal. Texts built by string formatting of
      numbers are kept structured instead of rendered. */
  datatype StatusText =
    | Text(s: string)                          // a literal or concatenated string
    | Eta(seconds: int)                        // "ETA: <seconds>"
    | EtaValue(raw: Option<int>)               // a falsy eta (None or 0) passed on unchanged
    | Megabytes(downloaded: nat, total: int)   // "<downloaded> MB / <total> MB", bytes shown in MiB

  datatype Event =
    | Progress(pct: real)
    | Status(text: StatusText)
    | Finished(success: bool, message: string)

  /** No terminal event anywhere in `t`. */
  predicate NoFinished(t: seq<Event>)
  {
    forall i :: 0 <= i < |t| ==> !t[i].Finished?
  }

  /** No percentage anywhere in `t`. */
  predicate NoProgress(t: seq<Event>)
  {
    forall i :: 0 <= i < |t| ==> !t[i].Progress?
  }

  /** Exactly one terminal event, and it is the last one. */
  predicate FinishedOnlyLast(t: seq<Event>)
  {
    |t| > 0 && t[|t| - 1].Finished? && NoFinished(t[..|t| - 1])
  }

  /** Every percentage in `t` lies in [lo, hi]. */
  predicate ProgressWithin(t: seq<Event>, lo: real, hi: real)
  {
    forall i :: 0 <= i < |t| && t[i].Progress? ==> lo <= t[i].pct <= hi
  }

  /** The percentages in `t`, read in order, never go down. */
  predicate ProgressMonotone(t: seq<Event>)
  {
    forall i, j :: 0 <= i < j < |t| && t[i].Progress? && t[j].Progress? ==> t[i].pct <= t[j].pct
  }

  /** A single status event. */
  function Announce(text: string): (t: seq<Event>)
    ensures |t| == 1 && t[0] == Status(Text(text))
    ensures NoFinished(t) && NoProgress(t)
  {
    [Status(Text(text))]
  }

  /** The terminal event of a failed job: the error as status, then the failure itself. */
  function Failure(msg: string): (t: seq<Event>)
    ensures |t| == 2
    ensures FinishedOnlyLast(t) && t[|t| - 1] == Finished(false, msg)
    ensures t[0] == Status(Text("Error: " + msg))
    ensures NoProgress(t)
  {
    [Status(Text("Error: " + msg)), Finished(false, msg)]
  }

  lemma NoFinishedConcat(a: seq<Event>, b: seq<Event>)
    ensures NoFinished(a + b) <==> NoFinished(a) && NoFinished(b)
  {
    if NoFinished(a) && NoFinished(b) {
      forall i | 0 <= i < |a + b| ensures !(a + b)[i].Finished? {
        if i >= |a| { assert (a + b)[i] == b[i - |a|]; }
      }
    }
    if NoFinished(a + b) {
      forall i | 0 <= i < |a| ensures !a[i].Finished? {
        assert a[i] == (a + b)[i];
      }
      forall i | 0 <= i < |b| ensures !b[i].Finished? {
        assert b[i] == (a + b)[i + |a|];
      }
    }
  }

  /** Appending one terminal event to a terminal-free prefix gives a trace with
      exactly one terminal event, last. */
  lemma EndsWithFinished(pre: seq<Event>, last: Event)
    requires NoFinished(pre) && last.Finished?
    ensures FinishedOnlyLast(pre + [last])
  {
    assert (pre + [last])[..|pre|] == pre;
  }

  /** A trace framed by a terminal-free prefix and a closing part with one
      terminal event, last, has exactly one terminal event, last. */
  lemma Framed(start: seq<Event>, mid: seq<Event>, end: seq<Event>)
    requires NoFinished(start) && NoFinished(mid) && FinishedOnlyLast(end)
    ensures FinishedOnlyLast(start + mid + end)
  {
    var t := start + mid + end;
    NoFinishedConcat(start, mid);
    NoFinishedConcat(start + mid, end[..|end| - 1]);
    assert t[..|t| - 1] == start + mid + end[..|end| - 1];
  }

  /** Where each part of a framed trace sits in it. */
  lemma FramedSlices(start: seq<Event>, mid: seq<Event>, end: seq<Event>)
    requires |start| > 0 && |end| > 0
    ensures var t := start + mid + end;
      && |t| == |start| + |mid| + |end|
      && t[0] == start[0]
      && t[|t| - 1] == end[|end| - 1]
      && t[|start|..|start| + |mid|] == mid
      && t[|t| - |end|..] == end
  {
    var t := start + mid + end;
    assert t[|start|..|start| + |mid|] == mid;
    assert t[|t| - |end|..] == end;
  }

  /** Framing a middle part with parts that carry no percentage adds no
      percentage: bounds and order of the middle part carry over. */
  lemma FramedProgress(start: seq<Event>, mid: seq<Event>, end: seq<Event>, lo: real, hi: real)
    requires NoProgress(start) && NoProgress(end)
    ensures ProgressWithin(mid, lo, hi) ==> ProgressWithin(start + mid + end, lo, hi)
    ensures ProgressMonotone(mid) ==> ProgressMonotone(start + mid + end)
  {
    var t := start + mid + end;
    forall i | 0 <= i < |t| ensures t[i] == (if i < |start| then start[i] else if i < |start| + |mid| then mid[i - |start|]
                                              else end[i - |start| - |mid|]) {
    }
  }

  lemma ProgressWithinConcat(a: seq<Event>, b: seq<Event>, lo: real, hi: real)
    requires ProgressWithin(a, lo, hi) && ProgressWithin(b, lo, hi)
    ensures ProgressWithin(a + b, lo, hi)
  {
    forall i | 0 <= i < |a + b| && (a + b)[i].Progress? ensures lo <= (a + b)[i].pct <= hi {
      if i >= |a| { assert (a + b)[i] == b[i - |a|]; }
    }
  }

  /** Two monotone traces in a row stay monotone when every percentage of the
      first is at most every percentage of the second. */
  lemma ProgressMonotoneConcat(a: seq<Event>, b: seq<Event>, mid: real)
    requires ProgressMonotone(a) && ProgressMonotone(b)
    requires forall i :: 0 <= i < |a| && a[i].Progress? ==> a[i].pct <= mid
    requires forall i :: 0 <= i < |b| && b[i].Progress? ==> mid <= b[i].pct
    ensures ProgressMonotone(a + b)
  {
    var t := a + b;
    forall i, j | 0 <= i < j < |t| && t[i].Progress? && t[j].Progress? ensures t[i].pct <= t[j].pct {
      if j < |a| {
        assert t[i] == a[i] && t[j] == a[j];
      } else if i >= |a| {
        assert t[i] == b[i - |a|] && t[j] == b[j - |a|];
      } else {
        assert t[i] == a[i] && t[j] == b[j - |a|];
      }
    }
  }
}

=== FILE: text.dfy ===
/** Python's `str.strip()` with no argument. */
module Text {

  /** `c.isspace()` in Python: the ASCII separators and the Unicode white-space
      characters (bidirectional class WS, B or S, or category Zs). */
  predicate IsSpace(c: char)
  {
    var n := c as int;
    || (0x09 <= n <= 0x0D)
    || (0x1C <= n <= 0x20)
    || n == 0x85 || n == 0xA0 || n == 0x1680
    || (0x2000 <= n <= 0x200A)
    || n == 0x2028 || n == 0x2029 || n == 0x202F || n == 0x205F || n == 0x3000
  }

  /** Number of white-space characters at the front of `s`. */
  function Leading(s: string): (n: nat)
    ensures n <= |s|
    ensures forall k :: 0 <= k < n ==> IsSpace(s[k])
    ensures n < |s| ==> !IsSpace(s[n])
    decreases |s|
  {
    if |s| > 0 && IsSpace(s[0]) then 1 + Leading(s[1..]) else 0
  }

  /** Number of white-space characters at the back of `s`. */
  function Trailing(s: string): (n: nat)
    ensures n <= |s|
    ensures forall k :: |s| - n <= k < |s| ==> IsSpace(s[k])
    ensures n < |s| ==> !IsSpace(s[|s| - n - 1])
    decreases |s|
  {
    if |s| > 0 && IsSpace(s[|s| - 1]) then 1 + Trailing(s[..|s| - 1]) else 0
  }

  /** `s.strip()`: the slice of `s` left after cutting white space from both ends.
      The result is empty exactly when `s` is all white space, and otherwise
      starts and ends with a character that is not white space; everything cut
      from either end is white space. */
  function Strip(s: string): (r: string)
    ensures r == "" <==> forall k :: 0 <= k < |s| ==> IsSpace(s[k])
    ensures r != "" ==> !IsSpace(r[0]) && !IsSpace(r[|r| - 1])
    ensures Leading(s) + |r| <= |s| && r == s[Leading(s)..Leading(s) + |r|]
    ensures forall k :: Leading(s) + |r| <= k < |s| ==> IsSpace(s[k])
  {
    var i := Leading(s);
    var t := Trailing(s);
    if i == |s| then ""
    else
      s[i..|s| - t]
  }
}

=== FILE: window.dfy ===
/** `DownoaderWidget` (ui/main_window.py): the link list and its controls as a
    state machine. Widgets become values: the rows, the text in the link box,
    the chosen folder and format, the dark-mode flag, the configuration with
    its file, the tasks handed to the thread pool, and the message boxes shown. */
module MainWindow {
  import opened Wrappers
  import opened Signals
  import opened Config
  import opened LinkItem
  import Text
  import YtOptions
  import Worker
  import ProgressHook

  /** The message boxes: the empty-link warning and the no-links notice. */
  datatype Notice = EmptyLinkWarning | NoLinksInfo

  /** A task handed to the pool, with the row its signals are connected to. */
  datatype Submission = Submission(rowId: nat, task: Worker.Task)

  datatype Window = Window(
    rows: seq<Row>,
    nextId: nat,
    input: string,
    downloadFolder: string,
    format: string,
    dark: bool,
    cfg: Cfg,
    store: ConfigFile,
    submitted: seq<Submission>,
    notices: seq<Notice>)

  predicate UniqueIds(rows: seq<Row>)
  {
    forall i, j :: 0 <= i < j < |rows| ==> rows[i].id != rows[j].id
  }

  /** The invariant every operation keeps: rows are told apart by their ids,
      which stay below the next fresh one, the format box shows one of its
      items, and the configuration holds the typed default keys. */
  predicate Valid(w: Window)
  {
    && UniqueIds(w.rows)
    && (forall i :: 0 <= i < |w.rows| ==> w.rows[i].id < w.nextId)
    && w.format in YtOptions.Selectors
    && Typed(w.cfg)
  }

  /** The configuration values the window reads as text are strings, and the
      one it reads as a check state is a boolean or a number. */
  predicate Typed(c: Cfg)
  {
    && DefaultKeys <= c.Keys
    && c["last_folder"].JString?
    && c["format_preset"].JString?
    && (c["dark_mode"].JBool? || c["dark_mode"].JNumber?)
  }

  /** The window's construction from the configuration file: the folder is
      `last_folder` (the home directory unless the file set it), the format box
      shows the saved preset when it is one of its items and its first item
      otherwise, and dark mode is `dark_mode` read as a check state (a number
      counts as checked when non-zero). A folder or preset that is not a
      string, or a `dark_mode` that is neither a boolean nor a number, is taken
      as a failed start. */
  function Init(store: ConfigFile, home: string): (w: Option<Window>)
    ensures w.Some? <==> Typed(Load(store, home))
    ensures w.Some? ==> Valid(w.value)
    ensures w.Some? ==> w.value.rows == [] && w.value.submitted == [] && w.value.notices == []
    ensures w.Some? ==> w.value.cfg == Load(store, home) && w.value.store == store
    ensures w.Some? ==> w.value.downloadFolder == Load(store, home)["last_folder"].s
    ensures w.Some? && !(store.Stored? && store.doc.JObject? && "last_folder" in store.doc.fields) ==>
      w.value.downloadFolder == home
    ensures w.Some? ==> w.value.dark == Truthy(Load(store, home)["dark_mode"])
    ensures w.Some? && Load(store, home)["format_preset"].s in YtOptions.Selectors ==>
      w.value.format == Load(store, home)["format_preset"].s
    ensures w.Some? && Load(store, home)["format_preset"].s !in YtOptions.Selectors ==>
      w.value.format == YtOptions.Selectors[0]
  {
    var cfg := Load(store, home);
    if !Typed(cfg) then None
    else
      var preset := cfg["format_preset"].s;
      Some(Window([], 0, "", cfg["last_folder"].s,
                  if preset in YtOptions.Selectors then preset else YtOptions.Selectors[0],
                  Truthy(cfg["dark_mode"]), cfg, store, [], []))
  }

  /** `on_add_clicked` with `add_link_item`: a link that is empty after
      stripping raises the warning and changes nothing else; otherwise exactly
      one new row for the stripped link is appended and the box is cleared. */
  function AddClicked(w: Window): (w': Window)
    ensures Text.Strip(w.input) == "" ==> w' == w.(notices := w.notices + [EmptyLinkWarning])
    ensures Text.Strip(w.input) != "" ==>
      && |w'.rows| == |w.rows| + 1
      && w'.rows[..|w.rows|] == w.rows
      && w'.rows[|w.rows|] == NewRow(w.nextId, Text.Strip(w.input))
      && w'.input == ""
      && w'.(rows := w.rows, nextId := w.nextId, input := w.input) == w
    ensures Valid(w) ==> Valid(w')
  {
    var url := Text.Strip(w.input);
    if url == "" then w.(notices := w.notices + [EmptyLinkWarning])
    else
      var rows := w.rows + [NewRow(w.nextId, url)];
      assert rows[..|w.rows|] == w.rows;
      w.(rows := rows, nextId := w.nextId + 1, input := "")
  }

  /** A change to one row, as one of its setters makes it. */
  datatype RowUpdate = SetTitleTo(title: string) | SetStatusTo(status: StatusText) | SetProgressTo(pct: real)

  function Apply(r: Row, u: RowUpdate): (r': Row)
    ensures r'.id == r.id && r'.url == r.url
  {
    match u
    case SetTitleTo(t) => SetTitle(r, t)
    case SetStatusTo(s) => SetStatus(r, s)
    case SetProgressTo(p) => SetProgress(r, p)
  }

  /** The setter applied to the row with identity `id`, if it is still listed;
      every other row is left as it was. */
  function ApplyToId(rows: seq<Row>, id: nat, u: RowUpdate): (rs: seq<Row>)
    ensures |rs| == |rows|
    ensures forall i :: 0 <= i < |rows| ==> rs[i] == (if rows[i].id == id then Apply(rows[i], u) else rows[i])
    decreases |rows|
  {
    if rows == [] then []
    else [if rows[0].id == id then Apply(rows[0], u) else rows[0]] + ApplyToId(rows[1..], id, u)
  }

  /** `update_widget` for a fetched title: a non-empty title replaces the row's
      title (the thumbnail is not modelled). */
  function MetadataArrived(w: Window, id: nat, title: Option<string>): (w': Window)
    ensures title.None? || title.value == "" ==> w' == w
    ensures title.Some? && title.value != "" ==>
      w' == w.(rows := ApplyToId(w.rows, id, SetTitleTo(title.value)))
  {
    if title.Some? && title.value != "" then w.(rows := ApplyToId(w.rows, id, SetTitleTo(title.value))) else w
  }

  /** `a` appears in `b` in the same relative order. */
  predicate Subsequence(a: seq<Row>, b: seq<Row>)
    decreases |b|
  {
    if a == [] then true
    else if b == [] then false
    else if a[0] == b[0] then Subsequence(a[1..], b[1..])
    else Subsequence(a, b[1..])
  }

  /** The rows left after `remove_selected`, `selected` being the identities
      of the selected rows. */
  function Keep(rows: seq<Row>, selected: set<nat>): (rs: seq<Row>)
    ensures forall r :: r in rs <==> r in rows && r.id !in selected
    decreases |rows|
  {
    if rows == [] then []
    else if rows[0].id in selected then Keep(rows[1..], selected)
    else [rows[0]] + Keep(rows[1..], selected)
  }

  /** Removal keeps the surviving rows in their original relative order. */
  lemma {:induction false} KeepOrdered(rows: seq<Row>, selected: set<nat>)
    ensures Subsequence(Keep(rows, selected), rows)
    decreases |rows|
  {
    if rows != [] {
      var rest := Keep(rows[1..], selected);
      KeepOrdered(rows[1..], selected);
      if rows[0].id in selected && rest != [] {
        assert rest[0] in rest;
      } else if rows[0].id !in selected {
        assert ([rows[0]] + rest)[1..] == rest;
      }
    }
  }

  /** Removal keeps the identities of the surviving rows distinct. */
  lemma {:induction false} KeepUnique(rows: seq<Row>, selected: set<nat>)
    ensures UniqueIds(rows) ==> UniqueIds(Keep(rows, selected))
    decreases |rows|
  {
    if rows != [] && UniqueIds(rows) {
      var rest := Keep(rows[1..], selected);
      assert UniqueIds(rows[1..]) by {
        forall i, j | 0 <= i < j < |rows[1..]| ensures rows[1..][i].id != rows[1..][j].id {
          assert rows[1..][i] == rows[i + 1] && rows[1..][j] == rows[j + 1];
        }
      }
      KeepUnique(rows[1..], selected);
      if rows[0].id !in selected {
        var rs := [rows[0]] + rest;
        forall i, j | 0 <= i < j < |rs| ensures rs[i].id != rs[j].id {
          if i == 0 {
            assert rs[j] == rest[j - 1] && rs[j] in rest;
            var k :| 0 <= k < |rows[1..]| && rows[1..][k] == rs[j];
            assert rows[k + 1] == rs[j];
          } else {
            assert rs[i] == rest[i - 1] && rs[j] == rest[j - 1];
          }
        }
      }
    }
  }

  /** Removing rows none of which is selected keeps them all. */
  lemma {:induction false} KeepNone(rows: seq<Row>, selected: set<nat>)
    requires forall i :: 0 <= i < |rows| ==> rows[i].id !in selected
    ensures Keep(rows, selected) == rows
    decreases |rows|
  {
    if rows != [] {
      KeepNone(rows[1..], selected);
      assert [rows[0]] + rows[1..] == rows;
    }
  }

  /** Removal distributes over the two parts of a list. */
  lemma {:induction false} KeepAppend(a: seq<Row>, b: seq<Row>, selected: set<nat>)
    ensures Keep(a + b, selected) == Keep(a, selected) + Keep(b, selected)
    decreases |a|
  {
    if a == [] {
      assert a + b == b;
    } else {
      assert (a + b)[0] == a[0] && (a + b)[1..] == a[1..] + b;
      KeepAppend(a[1..], b, selected);
    }
  }

  /** `remove_selected`: exactly the selected rows go; the rest stay in order. */
  function RemoveSelected(w: Window, selected: set<nat>): (w': Window)
    ensures forall r :: r in w'.rows <==> r in w.rows && r.id !in selected
    ensures Subsequence(w'.rows, w.rows)
    ensures w'.(rows := w.rows) == w
    ensures Valid(w) ==> Valid(w')
  {
    KeepOrdered(w.rows, selected);
    KeepUnique(w.rows, selected);
    w.(rows := Keep(w.rows, selected))
  }

  /** Removing the row just added restores the list as it was. */
  lemma AddThenRemove(w: Window)
    requires Valid(w) && Text.Strip(w.input) != ""
    ensures RemoveSelected(AddClicked(w), {w.nextId}).rows == w.rows
  {
    var added := NewRow(w.nextId, Text.Strip(w.input));
    assert AddClicked(w).rows == w.rows + [added];
    KeepAppend(w.rows, [added], {w.nextId});
    KeepNone(w.rows, {w.nextId});
    assert Keep([added], {w.nextId}) == [];
  }

  /** `choose_folder`: a cancelled dialog (empty result) changes nothing;
      otherwise the folder and `last_folder` become the choice and the
      configuration is saved. */
  function ChooseFolder(w: Window, folder: string, fault: WriteFault): (w': Window)
    ensures folder == "" ==> w' == w
    ensures folder != "" ==>
      && w'.downloadFolder == folder
      && w'.cfg == w.cfg["last_folder" := JString(folder)]
      && w'.store == Save(w.store, w'.cfg, fault)
      && w'.(downloadFolder := w.downloadFolder, cfg := w.cfg, store := w.store) == w
    ensures Valid(w) ==> Valid(w')
  {
    if folder == "" then w
    else
      var cfg := w.cfg["last_folder" := JString(folder)];
      w.(downloadFolder := folder, cfg := cfg, store := Save(w.store, cfg, fault))
  }

  /** `toggle_dark`: `dark_mode` becomes `bool(state)`, the style follows, and
      the configuration is saved. */
  function ToggleDark(w: Window, state: int, fault: WriteFault): (w': Window)
    ensures w'.dark == (state != 0)
    ensures w'.cfg == w.cfg["dark_mode" := JBool(state != 0)]
    ensures w'.store == Save(w.store, w'.cfg, fault)
    ensures w'.(dark := w.dark, cfg := w.cfg, store := w.store) == w
    ensures Valid(w) ==> Valid(w')
  {
    var cfg := w.cfg["dark_mode" := JBool(state != 0)];
    w.(dark := state != 0, cfg := cfg, store := Save(w.store, cfg, fault))
  }

  /** The task `download_all` builds for one row. */
  function TaskFor(w: Window, r: Row): Submission
  {
    Submission(r.id, Worker.Task(r.url, w.downloadFolder, w.format, Worker.YtDlp))
  }

  /** `download_all`: with no rows, only the notice; otherwise every row is
      queued and one yt-dlp task per row, in row order, is handed to the pool
      with the current folder and format. */
  method DownloadAll(w: Window) returns (w': Window)
    ensures |w.rows| == 0 ==> w' == w.(notices := w.notices + [NoLinksInfo])
    ensures |w.rows| > 0 ==>
      && |w'.rows| == |w.rows|
      && (forall i :: 0 <= i < |w.rows| ==> w'.rows[i] == SetStatus(w.rows[i], Text("Queued")))
      && |w'.submitted| == |w.submitted| + |w.rows|
      && w'.submitted[..|w.submitted|] == w.submitted
      && (forall i :: 0 <= i < |w.rows| ==> w'.submitted[|w.submitted| + i] == TaskFor(w, w.rows[i]))
      && w'.(rows := w.rows, submitted := w.submitted) == w
    ensures Valid(w) ==> Valid(w')
  {
    if |w.rows| == 0 {
      return w.(notices := w.notices + [NoLinksInfo]);
    }
    var rows := w.rows;
    var subs := w.submitted;
    var i := 0;
    while i < |rows|
      invariant 0 <= i <= |rows| && |rows| == |w.rows|
      invariant forall k :: 0 <= k < i ==> rows[k] == SetStatus(w.rows[k], Text("Queued"))
      invariant forall k :: i <= k < |rows| ==> rows[k] == w.rows[k]
      invariant |subs| == |w.submitted| + i
      invariant subs[..|w.submitted|] == w.submitted
      invariant forall k :: 0 <= k < i ==> subs[|w.submitted| + k] == TaskFor(w, w.rows[k])
    {
      var row := SetStatus(rows[i], Text("Queued"));
      rows := rows[i := row];
      subs := subs + [TaskFor(w, row)];
      i := i + 1;
    }
    w' := w.(rows := rows, submitted := subs);
    assert forall k :: 0 <= k < |rows| ==> rows[k].id == w.rows[k].id;
  }

  /** `on_finished`: success shows "Completed" at 100; failure shows
      "Failed: <message>" and leaves the bar alone. No other row changes. */
  function OnFinished(w: Window, id: nat, success: bool, message: string): (w': Window)
    ensures w'.(rows := w.rows) == w
    ensures |w'.rows| == |w.rows|
    ensures forall i :: 0 <= i < |w.rows| && w.rows[i].id != id ==> w'.rows[i] == w.rows[i]
    ensures forall i :: 0 <= i < |w.rows| && w.rows[i].id == id ==>
      && w'.rows[i].status == (if success then Text("Completed") else Text("Failed: " + message))
      && w'.rows[i].progress == (if success then 100 else w.rows[i].progress)
      && w'.rows[i].(status := w.rows[i].status, progress := w.rows[i].progress) == w.rows[i]
  {
    if success then
      var queued := ApplyToId(w.rows, id, SetStatusTo(Text("Completed")));
      w.(rows := ApplyToId(queued, id, SetProgressTo(100.0)))
    else
      w.(rows := ApplyToId(w.rows, id, SetStatusTo(Text("Failed: " + message))))
  }

  /** One signal of the task bound to row `id`, delivered on the UI thread:
      progress to `set_progress`, status to `set_status`, finished to
      `on_finished`. A row that was removed ignores it. */
  function Deliver(w: Window, id: nat, e: Event): Window
  {
    match e
    case Progress(p) => w.(rows := ApplyToId(w.rows, id, SetProgressTo(p)))
    case Status(s) => w.(rows := ApplyToId(w.rows, id, SetStatusTo(s)))
    case Finished(ok, m) => OnFinished(w, id, ok, m)
  }

  /** A task's signals, delivered in the order it emitted them. */
  function DeliverAll(w: Window, id: nat, t: seq<Event>): Window
    decreases |t|
  {
    if t == [] then w else Deliver(DeliverAll(w, id, t[..|t| - 1]), id, t[|t| - 1])
  }

  /** Delivery touches only the row it is bound to: the row identities and
      every other row, and everything outside the rows, stay as they were. */
  lemma {:induction false} DeliverAllFrame(w: Window, id: nat, t: seq<Event>)
    ensures var w' := DeliverAll(w, id, t);
      && w'.(rows := w.rows) == w
      && |w'.rows| == |w.rows|
      && (forall i :: 0 <= i < |w.rows| ==> w'.rows[i].id == w.rows[i].id && w'.rows[i].url == w.rows[i].url)
      && (forall i :: 0 <= i < |w.rows| && w.rows[i].id != id ==> w'.rows[i] == w.rows[i])
    decreases |t|
  {
    if t != [] {
      DeliverAllFrame(w, id, t[..|t| - 1]);
    }
  }

  /** Whatever came before, the terminal signal decides what the row shows. */
  lemma DeliverFinished(w: Window, id: nat, pre: seq<Event>, success: bool, message: string)
    ensures var w' := DeliverAll(w, id, pre + [Finished(success, message)]);
      forall i :: 0 <= i < |w'.rows| && w'.rows[i].id == id ==>
        && w'.rows[i].status == (if success then Text("Completed") else Text("Failed: " + message))
        && (success ==> w'.rows[i].progress == 100)
  {
    var t := pre + [Finished(success, message)];
    assert t[..|t| - 1] == pre;
  }

  /** The same for any trace that ends in a terminal signal. */
  lemma DeliverTrace(w: Window, id: nat, t: seq<Event>)
    requires |t| > 0 && t[|t| - 1].Finished?
    ensures var w' := DeliverAll(w, id, t);
      forall i :: 0 <= i < |w'.rows| && w'.rows[i].id == id ==>
        && w'.rows[i].status == (if t[|t| - 1].success then Text("Completed") else Text("Failed: " + t[|t| - 1].message))
        && (t[|t| - 1].success ==> w'.rows[i].progress == 100)
  {
    var last := t[|t| - 1];
    assert t == t[..|t| - 1] + [Finished(last.success, last.message)];
    DeliverFinished(w, id, t[..|t| - 1], last.success, last.message);
  }

  /** A yt-dlp "finished" report shows 100 and "Merging / finalizing..." on
      its row, whatever the row showed before. */
  lemma FinishedHookOverrides(w: Window, id: nat, prior: seq<Event>, d: ProgressHook.HookEvent)
    requires d.status == Some("finished")
    ensures var w' := DeliverAll(w, id, prior + ProgressHook.OnHook(d));
      forall i :: 0 <= i < |w'.rows| && w'.rows[i].id == id ==>
        w'.rows[i].progress == 100 && w'.rows[i].status == Text("Merging / finalizing...")
  {
    var t := prior + ProgressHook.OnHook(d);
    assert t[..|t| - 1] == prior + [Progress(100.0)];
    assert (prior + [Progress(100.0)])[..|t| - 2] == prior;
  }

  /** End to end: once a yt-dlp or HTTP task's whole trace reaches its row,
      the row shows "Completed" at 100 exactly when the job succeeded, and
      "Failed: <error>" otherwise; no other row is touched. */
  lemma RunShownOnRow(w: Window, id: nat, task: Worker.Task, env: Worker.Environment)
    requires task.kind != Worker.OtherKind
    ensures var t := Worker.Run(task, env);
      var w' := DeliverAll(w, id, t);
      forall i :: 0 <= i < |w'.rows| && w'.rows[i].id == id ==>
        && (Worker.Succeeds(task, env) ==> w'.rows[i].status == Text("Completed") && w'.rows[i].progress == 100)
        && (!Worker.Succeeds(task, env) ==> w'.rows[i].status == Text("Failed: " + t[|t| - 1].message))
  {
    DeliverTrace(w, id, Worker.Run(task, env));
  }

  /** A chosen folder survives a restart when the save succeeds. */
  lemma FolderPersists(w: Window, folder: string, home: string)
    requires Valid(w) && folder != ""
    ensures var w1 := ChooseFolder(w, folder, Written);
      Init(w1.store, home).Some? && Init(w1.store, home).value.downloadFolder == folder
  {
    var w1 := ChooseFolder(w, folder, Written);
    SaveLoadRoundTrip(w.store, w1.cfg, home);
  }

  /** The dark-mode choice survives a restart when the save succeeds. */
  lemma DarkModePersists(w: Window, state: int, home: string)
    requires Valid(w)
    ensures var w1 := ToggleDark(w, state, Written);
      Init(w1.store, home).Some? && Init(w1.store, home).value.dark == (state != 0)
  {
    var w1 := ToggleDark(w, state, Written);
    SaveLoadRoundTrip(w.store, w1.cfg, home);
  }
}

=== FILE: worker.dfy ===
/** `DownloadTask` (core/worker.py): runs one download of either kind and
    reports it as a trace of signals. What yt-dlp and the network do is an
    `Environment`; what the task emits in reply is `Run`. */
module Worker {
  import opened Wrappers
  import opened Signals
  import Paths
  import YtOptions
  import HttpDownload
  import ProgressHook

  /** `DownloadTypes.YTDLP`, `DownloadTypes.HTTP`, or any other value. */
  datatype Kind = YtDlp | Http | OtherKind

  datatype Task = Task(url: string, outdir: string, fmt: string, kind: Kind)

  /** The task's own `_progress_hook`, the one callback it hands to yt-dlp. */
  datatype HookRef = TaskProgressHook

  /** How the yt-dlp call ends: with an info dictionary (whose `title` may be
      absent) or by raising, the directory creation included. */
  datatype ExtractResult = Info(title: Option<string>) | Raised(error: string)

  /** What yt-dlp does with the options: the progress dictionaries it passes to
      the hook, in order, and then how the call ends. */
  datatype Extraction = Extraction(hooks: seq<ProgressHook.HookEvent>, result: ExtractResult)

  /** The collaborators' behaviour for one task, for each kind of job: what
      yt-dlp does given the options it is called with, and what the network
      answers for a URL. */
  datatype Environment = Environment(
    extract: YtOptions.Options<HookRef> -> Extraction,
    fetch: string -> HttpDownload.Fetch)

  /** The options `download_yt` passes to yt-dlp: the task's directory and
      selector, with the task's hook as the only progress hook. */
  function ExtractorOptions(t: Task): (o: YtOptions.Options<HookRef>)
    ensures o.progressHooks == [TaskProgressHook]
    ensures o.outtmpl == Paths.Join(t.outdir, YtOptions.OutputTemplate)
    ensures YtOptions.Decode(o) == Some(if t.fmt in YtOptions.Selectors then t.fmt else "Best (video+audio)")
  {
    YtOptions.DecodeBuild(t.outdir, t.fmt, Some(TaskProgressHook));
    YtOptions.Build(t.outdir, t.fmt, Some(TaskProgressHook))
  }

  /** `os.path.join(outdir, os.path.basename(url))`: where an HTTP job's file
      lands; it keeps the URL's last component as its name. */
  function HttpTarget(t: Task): (p: string)
    ensures Paths.Basename(p) == Paths.Basename(t.url)
  {
    var name := Paths.Basename(t.url);
    Paths.BasenameOfJoin(t.outdir, name);
    Paths.Join(t.outdir, name)
  }

  /** An HTTP job's file lands inside the task's folder: the base name never
      starts with a separator, so the join keeps the folder as a prefix. */
  lemma HttpTargetInFolder(t: Task)
    ensures |t.outdir| <= |HttpTarget(t)| && HttpTarget(t)[..|t.outdir|] == t.outdir
  {
    var name := Paths.Basename(t.url);
    assert |name| > 0 ==> name[0] != '/' by {
      if |name| > 0 { assert name[0] in name; }
    }
    assert HttpTarget(t) == Paths.Join(t.outdir, name);
  }

  /** The downloader moves the file to exactly the path the task reports: the
      `filename or basename(url)` fallback never changes the target, since the
      joined path is empty only when the base name is. */
  lemma MovedToTarget(t: Task)
    ensures HttpDownload.TargetName(t.url, Some(HttpTarget(t))) == HttpTarget(t)
  {
    var b := Paths.Basename(t.url);
    var p := Paths.Join(t.outdir, b);
    assert p == "" ==> b == "" by { assert |b| <= |p|; }
  }

  /** The end of `download_yt`: "Done" and success with the title (or ''),
      or the error pair `run`'s handler emits. */
  function YtClosing(r: ExtractResult): (t: seq<Event>)
    ensures |t| == 2 && FinishedOnlyLast(t) && NoProgress(t)
    ensures t[1].success <==> r.Info?
    ensures r.Info? ==> t == [Status(Text("Done")), Finished(true, r.title.GetOr(""))]
    ensures r.Raised? ==> t == Failure(r.error)
  {
    match r
    case Info(title) => [Status(Text("Done")), Finished(true, title.GetOr(""))]
    case Raised(e) => Failure(e)
  }

  /** `download_yt` inside `run`'s exception handler: the start status, then
      the hook's signals in the order yt-dlp reported, then the closing pair. */
  function RunYt(x: Extraction): (t: seq<Event>)
    ensures FinishedOnlyLast(t) && ProgressWithin(t, 0.0, 100.0)
    ensures t[0] == Status(Text("Starting yt-dlp"))
    ensures |t| == |ProgressHook.HookTrace(x.hooks)| + 3
    ensures t[1..|t| - 2] == ProgressHook.HookTrace(x.hooks)
    ensures t[|t| - 2..] == YtClosing(x.result)
  {
    var start := Announce("Starting yt-dlp");
    var hooks := ProgressHook.HookTrace(x.hooks);
    var end := YtClosing(x.result);
    Framed(start, hooks, end);
    FramedProgress(start, hooks, end, 0.0, 100.0);
    FramedSlices(start, hooks, end);
    start + hooks + end
  }

  /** Whether the HTTP path of `download_file` completes: a response with a
      usable length header whose stream and final move do not raise. */
  predicate HttpSucceeds(f: HttpDownload.Fetch)
  {
    f.Response? && !f.length.Malformed? && f.fault.None?
  }

  /** What the downloader's callbacks see: never a terminal event; with a
      positive declared length, percentages in [0, 100] that never go down;
      with no usable length, nothing at all. */
  lemma DownloadEvents(target: string, f: HttpDownload.Fetch)
    ensures NoFinished(HttpDownload.Download(target, f).events)
    ensures f.Response? && f.length.Declared? && f.length.n > 0 ==>
      ProgressWithin(HttpDownload.Download(target, f).events, 0.0, 100.0)
      && ProgressMonotone(HttpDownload.Download(target, f).events)
    ensures f.Response? && !f.length.Malformed? && HttpDownload.KnownTotal(f.length).None? ==>
      HttpDownload.Download(target, f).events == []
  {
    if f.Response? && !f.length.Malformed? {
      HttpDownload.StreamNoFinished(HttpDownload.KnownTotal(f.length), 0, f.chunks);
      if HttpDownload.KnownTotal(f.length).None? {
        HttpDownload.UnknownTotalSilent(0, f.chunks);
      }
      if f.length.Declared? && f.length.n > 0 {
        HttpDownload.StreamProgressBounded(f.length.n, f.chunks);
      }
    }
  }

  /** The end of `download_file`: the finished signal with the target path, or
      the error pair `run`'s handler emits. */
  function Closing(r: HttpDownload.Result, target: string): (t: seq<Event>)
    ensures |t| == (if r.Moved? then 1 else 2)
    ensures FinishedOnlyLast(t) && NoProgress(t)
    ensures t[|t| - 1].success <==> r.Moved?
    ensures r.Moved? ==> t == [Finished(true, target)]
    ensures r.Raised? ==> t == Failure(r.error)
  {
    if r.Moved? then [Finished(true, target)] else Failure(r.error)
  }

  /** Status-only text around the downloader's events keeps them bounded and
      monotone when the declared length is positive. */
  lemma FramedDownload(target: string, f: HttpDownload.Fetch, start: seq<Event>, end: seq<Event>)
    requires NoProgress(start) && NoProgress(end)
    ensures f.Response? && f.length.Declared? && f.length.n > 0 ==>
      var t := start + HttpDownload.Download(target, f).events + end;
      ProgressWithin(t, 0.0, 100.0) && ProgressMonotone(t)
  {
    DownloadEvents(target, f);
    FramedProgress(start, HttpDownload.Download(target, f).events, end, 0.0, 100.0);
  }

  /** `download_file` inside `run`'s exception handler. */
  function RunHttp(task: Task, f: HttpDownload.Fetch): (t: seq<Event>)
    ensures FinishedOnlyLast(t)
    ensures t[0] == Status(Text("Starting HTTP download"))
    ensures HttpSucceeds(f) <==> t[|t| - 1].success
    ensures HttpSucceeds(f) ==> t[|t| - 1] == Finished(true, HttpTarget(task))
    ensures !HttpSucceeds(f) ==> |t| >= 3 && t[|t| - 2..] == Failure(HttpDownload.Download(HttpTarget(task), f).result.error)
    ensures f.Response? && !f.length.Malformed? && HttpDownload.KnownTotal(f.length).None? ==>
      |t| == (if HttpSucceeds(f) then 2 else 3)
  {
    var target := HttpTarget(task);
    MovedToTarget(task);
    var o := HttpDownload.Download(HttpDownload.TargetName(task.url, Some(target)), f);
    var start := Announce("Starting HTTP download");
    var end := Closing(o.result, target);
    DownloadEvents(target, f);
    Framed(start, o.events, end);
    FramedSlices(start, o.events, end);
    start + o.events + end
  }

  /** What `download_file` emits for a given target: the start status, then
      every signal the downloader's callbacks receive, in order, then the
      closing part. */
  function HttpTrace(target: string, f: HttpDownload.Fetch): (t: seq<Event>)
    ensures var o := HttpDownload.Download(target, f);
      && |t| == 1 + |o.events| + |Closing(o.result, target)|
      && t[0] == Status(Text("Starting HTTP download"))
      && t[1..1 + |o.events|] == o.events
      && t[1 + |o.events|..] == Closing(o.result, target)
  {
    var o := HttpDownload.Download(target, f);
    var start := Announce("Starting HTTP download");
    var end := Closing(o.result, target);
    FramedSlices(start, o.events, end);
    start + o.events + end
  }

  /** An HTTP job's trace is the downloader's events, framed, for the target
      the task reports: nothing is dropped, reordered or invented. */
  lemma RunHttpEvents(task: Task, f: HttpDownload.Fetch)
    ensures RunHttp(task, f) == HttpTrace(HttpTarget(task), f)
  {
    MovedToTarget(task);
  }

  /** With a positive declared length, the percentages an HTTP job reports lie
      in [0, 100] and never go down. */
  lemma RunHttpProgress(task: Task, f: HttpDownload.Fetch)
    requires f.Response? && f.length.Declared? && f.length.n > 0
    ensures ProgressWithin(RunHttp(task, f), 0.0, 100.0) && ProgressMonotone(RunHttp(task, f))
  {
    var target := HttpTarget(task);
    MovedToTarget(task);
    var o := HttpDownload.Download(target, f);
    FramedDownload(target, f, Announce("Starting HTTP download"), Closing(o.result, target));
  }

  /** Whether `run` ends in success for this task and environment. */
  predicate Succeeds(task: Task, env: Environment)
  {
    match task.kind
    case YtDlp => env.extract(ExtractorOptions(task)).result.Info?
    case Http => HttpSucceeds(env.fetch(task.url))
    case OtherKind => false
  }

  /** `DownloadTask.run`: at most one branch runs; for either known kind
      exactly one terminal event is emitted, last, and it reports success
      exactly when the job succeeded; any other kind emits nothing. */
  function Run(task: Task, env: Environment): (t: seq<Event>)
    ensures task.kind == OtherKind <==> t == []
    ensures task.kind != OtherKind ==> FinishedOnlyLast(t)
    ensures task.kind != OtherKind ==> (Succeeds(task, env) <==> t[|t| - 1].success)
    ensures task.kind == YtDlp ==> t == RunYt(env.extract(ExtractorOptions(task)))
    ensures task.kind == Http ==> t == RunHttp(task, env.fetch(task.url))
  {
    match task.kind
    case YtDlp => RunYt(env.extract(ExtractorOptions(task)))
    case Http => RunHttp(task, env.fetch(task.url))
    case OtherKind => []
  }

  /** A trace ending in the error pair ends with that pair's message. */
  lemma FailureTail(t: seq<Event>, msg: string)
    requires |t| >= 2 && t[|t| - 2..] == Failure(msg)
    ensures t[|t| - 1] == Finished(false, msg)
  {
    assert t[|t| - 1] == t[|t| - 2..][1];
  }

  /** The yt-dlp branch ends with the title (or '') on success, or with the
      error pair whose status repeats the terminal message. */
  lemma RunYtMessage(x: Extraction)
    ensures var t := RunYt(x);
      && (x.result.Info? ==> t[|t| - 1].message == x.result.title.GetOr(""))
      && (x.result.Raised? ==> t[|t| - 2..] == Failure(t[|t| - 1].message))
  {
    var t := RunYt(x);
    var end := YtClosing(x.result);
    assert t[|t| - 1] == end[1];
  }

  /** A failing HTTP job ends with the error pair whose status repeats the
      terminal message. */
  lemma RunHttpMessage(task: Task, f: HttpDownload.Fetch)
    ensures var t := RunHttp(task, f);
      !HttpSucceeds(f) ==> t[|t| - 2..] == Failure(t[|t| - 1].message)
  {
    var t := RunHttp(task, f);
    if !HttpSucceeds(f) {
      FailureTail(t, HttpDownload.Download(HttpTarget(task), f).result.error);
    }
  }
}

=== FILE: wrappers.dfy ===
/** Optional values: Python's `None` next to a present value. */
module Wrappers {

  datatype Option<+T> = None | Some(value: T) {

    /** The value, or `default` when there is none (Python's `x or default` for a
        value that cannot be falsy, and `d.get(k, default)`). */
    function GetOr(default: T): (r: T)
      ensures Some? ==> r == value
      ensures None? ==> r == default
    {
      match this
      case Some(v) => v
      case None => default
    }
  }
}

=== FILE: ytoptions.dfy ===
/** `YTDownloader.download` (core/downloader.py): the options record handed to
    yt-dlp, computed from the output directory, the format selector text and
    the optional progress callback. */
module YtOptions {
  import opened Wrappers
  import Paths

  datatype PostProcessor = PostProcessor(key: string, preferredCodec: string, preferredQuality: string)

  /** The option keys the downloader sets; `postprocessors` is `None` when the
      key is absent. `H` is the type of the progress callback. */
  datatype Options<H> = Options(
    outtmpl: string,
    quiet: bool,
    noWarnings: bool,
    mergeOutputFormat: string,
    progressHooks: seq<H>,
    format: string,
    postprocessors: Option<seq<PostProcessor>>)

  const OutputTemplate: string := "%(title)s.%(ext)s"

  /** The selector texts the format box offers, in its order (ui/main_window.py). */
  const Selectors: seq<string> := ["Best (video+audio)", "720p", "360p", "Audio (mp3)", "Audio (m4a)"]

  /** Best video no taller than `height` with the best audio, else the best
      single file no taller than `height`. */
  function Capped(height: string): string
  {
    "bestvideo[height<=" + height + "]+bestaudio/best[height<=" + height + "]"
  }

  function ExtractAudio(codec: string): PostProcessor
  {
    PostProcessor("FFmpegExtractAudio", codec, "192")
  }

  /** The options for selector `fmt`. Every selector text is accepted; one the
      chain of comparisons does not name (`'best'` included) selects `best`. */
  function Build<H>(outdir: string, fmt: string, callback: Option<H>): (o: Options<H>)
    ensures o.outtmpl == Paths.Join(outdir, OutputTemplate)
    ensures o.quiet && o.noWarnings && o.mergeOutputFormat == "mp4"
    ensures o.progressHooks == [] <==> callback.None?
    ensures callback.Some? ==> o.progressHooks == [callback.value]
    ensures o.format in {"bestaudio", Capped("720"), Capped("360"), "best"}
    ensures o.postprocessors.Some? <==> fmt == "Audio (mp3)" || fmt == "Audio (m4a)"
    ensures o.format == "bestaudio" <==> o.postprocessors.Some?
    ensures o.format == "best" <==> fmt !in {"Audio (mp3)", "Audio (m4a)", "720p", "360p"}
  {
    var base := Options(Paths.Join(outdir, OutputTemplate), true, true, "mp4",
                        if callback.Some? then [callback.value] else [], "", None);
    if fmt == "Audio (mp3)" then base.(format := "bestaudio", postprocessors := Some([ExtractAudio("mp3")]))
    else if fmt == "Audio (m4a)" then base.(format := "bestaudio", postprocessors := Some([ExtractAudio("m4a")]))
    else if fmt == "720p" then base.(format := Capped("720"))
    else if fmt == "360p" then base.(format := Capped("360"))
    else base.(format := "best")
  }

  /** Reads back which offered selector an options record implements: the
      stream policy and the audio post-processing, nothing else. */
  function Decode<H>(o: Options<H>): (s: Option<string>)
    ensures s.Some? ==> s.value in Selectors
  {
    if o.format == "bestaudio" && o.postprocessors == Some([ExtractAudio("mp3")]) then Some("Audio (mp3)")
    else if o.format == "bestaudio" && o.postprocessors == Some([ExtractAudio("m4a")]) then Some("Audio (m4a)")
    else if o.format == Capped("720") && o.postprocessors.None? then Some("720p")
    else if o.format == Capped("360") && o.postprocessors.None? then Some("360p")
    else if o.format == "best" && o.postprocessors.None? then Some("Best (video+audio)")
    else None
  }

  /** Every offered selector yields options that read back as that selector, so
      the five policies are pairwise different; any other text reads back as
      the best-quality selector. */
  lemma DecodeBuild<H>(outdir: string, fmt: string, callback: Option<H>)
    ensures fmt in Selectors ==> Decode(Build(outdir, fmt, callback)) == Some(fmt)
    ensures fmt !in Selectors ==> Decode(Build(outdir, fmt, callback)) == Some("Best (video+audio)")
  {
    assert "mp3" != "m4a";
    assert Capped("720") != Capped("360") by {
      assert Capped("720")[19] != Capped("360")[19];
    }
    assert Capped("720") != "best" && Capped("360") != "best" by {
      assert |Capped("720")| != 4 && |Capped("360")| != 4;
    }
    assert "bestaudio" != "best";
  }

  /** The two audio selectors differ only in the codec; both keep quality 192. */
  lemma AudioPresets<H>(outdir: string, callback: Option<H>)
    ensures var a := Build(outdir, "Audio (mp3)", callback);
      a.format == "bestaudio" && a.postprocessors == Some([PostProcessor("FFmpegExtractAudio", "mp3", "192")])
    ensures var b := Build(outdir, "Audio (m4a)", callback);
      b.format == "bestaudio" && b.postprocessors == Some([PostProcessor("FFmpegExtractAudio", "m4a", "192")])
    ensures Build(outdir, "Audio (mp3)", callback).(postprocessors := None)
         == Build(outdir, "Audio (m4a)", callback).(postprocessors := None)
  {
  }
}
